=== FILE: README.md ===
# Song catalogue CRUD core, in Dafny

This project models the core of a small C# console application that keeps a
catalogue of songs in a SQL Server table. It has three parts:

- `Song`: an id, title, album, year and artist, plus a one-line rendering.
- `Database`: implements the `IDatabase` interface. Each operation hands a
  database executor a fixed query text, a parameter setup and a result
  extraction.
- `SongManager`: the console front end. It prompts for fields, validates
  them, calls `IDatabase` and prints the outcome.

How the model is built:

- The executor and the SQL engine behind it are abstract. An `Engine` gives
  the scalar, the reader rows or the affected-row count for a `Command`. A
  `Command` is the query text together with the parameters bound to it, in
  order.
- Each repository operation builds its command and applies the source's
  extraction to the engine's answer.
- `Connect(e)` packages the six operations as an `IDatabase` value
  (`SongDatabase`, a record of functions).
- Each console operation is a pure function. It takes the database, the input
  lines still to be read and the current year. It returns a `Run`:
  - the database calls made, in order;
  - the lines printed;
  - how many input lines were read;
  - how the operation ended: `Done`, `OutOfInput` or `Raised`.

Files:

| file | module | models |
|---|---|---|
| `wrappers.dfy` | `Wrappers` | `Option` and `Result` |
| `text.dfy` | `Text` | 32-bit `int`, `Char.IsWhiteSpace`, `String.Trim`, `String.Length`, `int.TryParse`, `int.ToString` |
| `song.dfy` | `Songs` | `DB/Song.cs` |
| `database.dfy` | `Database` | `DB/Database.cs` |
| `song_manager.dfy` | `SongManager` | `DB/SongManager.cs` |
| `scenarios.dfy` | `Scenarios` | the behaviours the unit tests check, as lemmas |

Several choices follow the code rather than its messages:

- The title check rejects fewer than three UTF-16 code units, so a title of
  exactly three characters is accepted. The message says "greater than 3".
- "Song updated with id" and "Deleted song id:" are printed whatever
  `UpdateSong` and `DeleteSong` return.
- `SearchSong` passes the query on unchanged, and the repository wraps it in
  `%` wildcards. So `AllSongs` searches with the pattern `%%%`.

## Model

| member | source | states |
|---|---|---|
| Text.TrimStartRemovesSpacePrefix | DB/SongManager.cs:32 | `Trim` drops exactly the leading white-space run: what is left is a suffix, everything dropped is white space, and it starts with a non-space character |
| Text.TrimEndRemovesSpaceSuffix | DB/SongManager.cs:32 | the same for the trailing white-space run |
| Text.BlankIffAllWhiteSpace | DB/SongManager.cs:32 | `input.Trim() == ""` holds exactly when every character of the line is white space |
| Text.TrimUnchanged | DB/SongManager.cs:79 | a string whose first and last characters are not white space is left alone by trimming |
| Text.Trim | DB/SongManager.cs:32 | `String.Trim`: what it keeps and drops is stated by `TrimStartRemovesSpacePrefix`, `TrimEndRemovesSpaceSuffix` and `BlankIffAllWhiteSpace` |
| Text.Utf16Length | DB/SongManager.cs:40 | `String.Length` counts UTF-16 units: at least one and at most two per character |
| Text.NatToString | DB/Song.cs:23 | a number prints as a non-empty run of digits without a leading zero |
| Text.IntToString | DB/Song.cs:23 | a printed `int` is non-empty and holds only digits and a minus sign |
| Text.DigitChar | DB/Song.cs:23 | every digit value prints as a decimal digit |
| Text.DigitsValueOfNatToString | DB/Song.cs:23 | reading back the digits printed for a natural number gives that number |
| Text.SignedValueOfIntToString | DB/SongManager.cs:79 | the sign-and-digits reader inverts `int.ToString()`, negative numbers included |
| Text.ParseIntToString | DB/SongManager.cs:79 | `int.TryParse` accepts every printed `int` and returns it unchanged |
| Text.ParseInt32 | DB/SongManager.cs:79 | `int.TryParse` under `NumberStyles.Integer`; `ParseIntToString` shows it inverts `int.ToString()` on every `int`, and the scenarios fix its answer on "123", "abc", "99999" and "1599" |
| Songs.NewSong | DB/Song.cs:12-19 | the constructor stores each argument in the property of the same name |
| Songs.WithId | DB/Song.cs:6 | setting `Id` changes the id and leaves the other four properties alone |
| Songs.Render | DB/Song.cs:21-24 | `ToString()`; `RenderedIdRoundTrip` and `RenderedYearRoundTrip` show the id and year read back from it, and `RenderContainsFields` that title, artist and album occur in it verbatim |
| Songs.NumberThenSpace | DB/Song.cs:23 | in a printed number followed by a space, the first space ends the number |
| Songs.IdPrefixRoundTrip | DB/Song.cs:23 | `"ID: "`, a printed id, then a space: the id reads back |
| Songs.RenderedIdRoundTrip | DB/Song.cs:23 | the rendering of any song starts with its id, which parses back to the id |
| Songs.YearSuffixRoundTrip | DB/Song.cs:23 | any text, then a printed year in parentheses at the end: the year reads back |
| Songs.RenderedYearRoundTrip | DB/Song.cs:23 | the rendering of any song ends with its year in parentheses, whatever the other fields contain |
| Songs.RenderContainsFields | DB/Song.cs:23 | title, artist and album all occur verbatim in the rendering |
| Database.Lookup | DB/Database.cs:38-42 | a parameter name is unbound exactly when no parameter carries it; otherwise its value is that of a parameter of that name |
| Database.LookupFirst | DB/Database.cs:104-108 | the lookup returns the first parameter of the name |
| Database.FieldParametersBind | DB/Database.cs:39-42 | the four field parameters bind title, album, year and artist to the song's values, whatever came before under other names |
| Database.InsertPlaceholders | DB/Database.cs:26 | the insert text holds `@title`, `@album`, `@year` and `@artist` |
| Database.UpdatePlaceholders | DB/Database.cs:97 | the update text holds the four field placeholders and `@id` |
| Database.FieldPlaceholdersBound | DB/Database.cs:38-42 | appending the field parameters to a text with their placeholders keeps every parameter matched to a placeholder |
| Database.CreateCommand | DB/Database.cs:26-43 | the insert command carries the insert text, binds every field to the song's value, and binds nothing without a placeholder |
| Database.UpdateCommand | DB/Database.cs:97-109 | the update command binds `id` to the song's id and every field to its value, each with a placeholder in the text |
| Database.ByIdCommand | DB/Database.cs:48-67 | the select, delete and exists commands bind only `id`, to the id given, which the text names |
| Database.SearchCommand | DB/Database.cs:72-92 | the search binds `name` to the query wrapped in one `%` on each side |
| Database.NewIdOf | DB/Database.cs:31-34 | a missing or NULL scalar throws "Failed to insert song and retrieve ID."; any other scalar is the new id |
| Database.FirstSong | DB/Database.cs:53-65 | an empty reader gives the sentinel `Song(0, "", "", 0, "")`; otherwise the first row, column by column |
| Database.SongsOfRows | DB/Database.cs:77-90 | the search result has one song per row, in reader order |
| Database.RowExists | DB/Database.cs:128-131 | the exists check holds exactly when `ReadSong`'s extraction over the same rows does not give the sentinel id 0 |
| Database.CreateSong | DB/Database.cs:24-44 | the insert fails exactly when the engine gives no usable scalar, and otherwise returns the engine's id |
| Database.UpdateSong | DB/Database.cs:95-110 | the result is whether the engine reports a positive affected-row count, so zero rows gives `false` and no error; the command is `UpdateCommand` (update text, `id` and the four fields bound from the song), `UpdateThenReadRoundTrip` shows its bindings read back as the song, and `UpdateSongOverDatabase` shows what the console sends and reports |
| Database.DeleteSong | DB/Database.cs:112-119 | the result is whether the engine reports a positive affected-row count, so zero rows gives `false` and no error; the command is `ByIdCommand` with the delete text and `id` as its only parameter, and `DeleteSongOverDatabase` shows the console sends it only for an id the exists query confirmed |
| Database.ReadSong | DB/Database.cs:46-68 | the select by id read through `FirstSong`; `ReadSongAfterInsert` shows an inserted song reads back with its new id, and `CheckExistsAgreesWithReadSong` ties it to `CheckExists` |
| Database.ReadSongAfterInsert | DB/Database.cs:46-68 | when the select reads back the row an insert of a song stored under the new id, `ReadSong` returns that song carrying the new id |
| Database.SearchSong | DB/Database.cs:70-93 | the search sends `SearchCommand` (the name wrapped in `%`) and maps every row through `SongsOfRows`; `AllSongsOverDatabase` shows the listing covers every row read |
| Database.CheckExists | DB/Database.cs:121-134 | the exists query read through `RowExists`; `CheckExistsAgreesWithReadSong` and `DeleteSongOverDatabase` state what it decides |
| Database.Connect | DB/Database.cs:15-22 | `new Database(executor)` seen through `IDatabase`; the `...OverDatabase` lemmas state what the console operations do over it |
| SongManager.UpdateSongOverDatabase | DB/Database.cs:95-110 | over the SQL-backed database, an edit of a confirmed id with four acceptable lines sends the update text with `id` bound to the parsed id line and title, album and artist bound to the accepted lines verbatim and `year` to the number the year line parses to; the update is reported whatever the affected-row count |
| SongManager.DeleteSongOverDatabase | DB/Database.cs:112-119 | over the SQL-backed database, the delete is sent exactly when the exists query's first row has a non-zero id, always for the id that was read; the run ends normally, reporting the deletion or the missing id accordingly |
| Database.CreateThenReadRoundTrip | DB/Database.cs:39-42 | a row stored from the insert's bindings under the new id reads back as the song carrying that id |
| Database.UpdateBindsWhatCreateBinds | DB/Database.cs:105-108 | the update binds the same four field values as an insert of the same song |
| Database.UpdateThenReadRoundTrip | DB/Database.cs:104-108 | a row rewritten from the update's bindings under the bound id reads back as exactly the song |
| Database.FirstSongIsHeadOfSongs | DB/Database.cs:55-65 | the read extraction is the first element of the search extraction, or the sentinel when there is none |
| Database.CheckExistsAgreesWithReadSong | DB/Database.cs:121-134 | when both queries see the same leading id, `CheckExists` holds exactly when `ReadSong` does not return the sentinel id |
| SongManager.IsIntAcceptsPrintedNumbers | DB/SongManager.cs:77-80 | `IsInt` accepts every printed `int`, and `Int32.Parse` gives it back |
| SongManager.IsInt | DB/SongManager.cs:77-80 | `IsInt` is `int.TryParse` accepting the text; `IsIntAcceptsPrintedNumbers` and `IsIntExamples` fix what it accepts |
| SongManager.Rejection | DB/SongManager.cs:32-58 | a line is accepted as field `i` exactly when it is not blank, a title is at least 3 UTF-16 units long, and a year parses and lies in [1600, current year]; a rejection prints one of the three notes |
| SongManager.Collect | DB/SongManager.cs:29-62 | the loop stores one accepted line per remaining field, reads one line per field or note, and gives up only when fewer lines than fields remain |
| SongManager.CollectedFieldsAreInputLines | DB/SongManager.cs:60 | every stored field is one of the lines read, untrimmed |
| SongManager.NoIdSongPrompt | DB/SongManager.cs:24-75 | the prompt prints its request first and never reads fewer than four lines |
| SongManager.PromptedSongIsValid | DB/SongManager.cs:24-75 | a prompted song has id 0, a title of at least 3 units, non-blank fields read verbatim, a year in range parsed from a line read, and one note per extra line |
| SongManager.UnansweredMeansInputRanOut | DB/SongManager.cs:29-31 | the prompt is left unanswered only when fewer acceptable lines arrive than there are fields |
| SongManager.RejectedLineDoesNotAdvance | DB/SongManager.cs:32-58 | a rejected line prints its note and the same field is asked for again |
| SongManager.AcceptedLineAdvances | DB/SongManager.cs:60-61 | an accepted line becomes the field, and the next line is read for the next field |
| SongManager.ValidSuffixFills | DB/SongManager.cs:29-62 | acceptable lines for the remaining fields fill them in order, with nothing printed |
| SongManager.ValidLinesFillInOrder | DB/SongManager.cs:64-74 | four acceptable lines make `Song(0, title, album, year, artist)` in that order, after the single request line |
| SongManager.RenderAll | DB/SongManager.cs:145-148 | one printed line per song |
| SongManager.RenderIsNotAMessage | DB/SongManager.cs:162-169 | a printed song can never be read as "Song not found" or either "No songs" note |
| SongManager.CreateSong | DB/SongManager.cs:82-86 | the prompt's output and line count carry through unchanged; the prompted song is inserted exactly once; the new id is printed on success, and an insert failure escapes as the raised error |
| SongManager.CreateWithValidLines | DB/SongManager.cs:82-86 | four acceptable lines and a successful insert give exactly the request line and "Song created with id N" |
| SongManager.EditSong | DB/SongManager.cs:88-110 | end of input throws; a bad id prints "Try again" and returns normally after one line; a missing id stops normally after the check; a prompt that runs out after a confirmed id ends for lack of input; an update happens only second, only after a successful check, carries the prompted fields under the checked id, and ends normally having read the id line and the prompt's lines |
| SongManager.EditWithValidLines | DB/SongManager.cs:88-110 | an existing id and four acceptable lines give the check, one update under that id, and the update report |
| SongManager.DeleteSong | DB/SongManager.cs:112-131 | end of input throws; a bad id prints "Try again" and returns normally after one line; a missing id stops normally after the check; a valid id reads one line and ends normally; a delete happens only second, only for an id the check confirmed, and is reported whatever it returns |
| SongManager.SearchSong | DB/SongManager.cs:133-150 | the query line, the only line read, is searched unchanged; no result prints the no-match note, otherwise a header and one rendering per song in order |
| SongManager.GetSong | DB/SongManager.cs:152-170 | end of input throws; a bad id prints "Try again" and returns normally after one line; otherwise one read by the parsed id, ending normally after one line, with the prompt first and "Song not found" printed (anywhere) exactly when the read gives id 0 and the rendering otherwise |
| SongManager.AllSongs | DB/SongManager.cs:172-187 | one search for "%", listed like a search with its own empty note and header |
| SongManager.EditAndDeleteIgnoreOutcome | DB/SongManager.cs:108-109 | editing and deleting behave the same whatever `UpdateSong` and `DeleteSong` return |
| SongManager.GetSongOverDatabase | DB/SongManager.cs:161-169 | over the SQL-backed database, "Song not found" is printed, on its line or anywhere in the output, exactly when the select reads no row or a row with id 0; otherwise that row's rendering is printed |
| SongManager.AllSongsOverDatabase | DB/SongManager.cs:174 | over the SQL-backed database, listing all songs binds the pattern `%%%` and lists every row read |
| Scenarios.IsIntExamples | TestDB/SongManagerTest.cs:52-68 | `IsInt("123")` holds and `IsInt("abc")` does not |
| Scenarios.TestLinesAccepted | TestDB/SongManagerTest.cs:38 | each of the four test lines passes the check of its field, from 2023 on |
| Scenarios.PromptReturnsTestSong | TestDB/SongManagerTest.cs:35-49 | the four test lines give the test song, unsaved |
| Scenarios.RejectionExamples | DB/SongManager.cs:32-58 | blank lines, a two-character title, years 99999 and 1599 and a non-number year are rejected with their notes; a two-character album is accepted |
| Scenarios.CreateInsertsOnceAndPrintsId | TestDB/SongManagerTest.cs:71-88 | creating inserts the test song once and prints "Song created with id 1" |
| Scenarios.EditFieldsAccepted | TestDB/SongManagerTest.cs:96 | the edit test's four field lines pass their checks |
| Scenarios.EditUpdatesExistingSong | TestDB/SongManagerTest.cs:91-108 | editing id 1 updates the new song under id 1 and reports it, although the stub's update returns false |
| Scenarios.MissingIdStopsEditAndDelete | TestDB/SongManagerTest.cs:111-168 | for an id that does not exist, neither update nor delete is called, and "Song with this id not exists" is printed |
| Scenarios.DeleteRemovesExistingSong | TestDB/SongManagerTest.cs:131-148 | deleting an existing id 1 calls delete once and prints "Deleted song id: 1" |
| Scenarios.SearchListsEveryMatch | TestDB/SongManagerTest.cs:171-194 | the search for "test" lists both songs, each line containing its title |
| Scenarios.GetPrintsFoundSong | TestDB/SongManagerTest.cs:197-215 | getting id 1 reads once and prints that song |
| Scenarios.AllSongsListsEverySong | TestDB/SongManagerTest.cs:218-238 | listing searches for "%" once and prints the header and both songs |
| Scenarios.InsertTextMatchesTest | TestDB/DBTest.cs:35-38 | the insert query text is the one the test expects |
| Scenarios.SelectTextMatchesTest | TestDB/DBTest.cs:59-62 | the select-by-id query text is the one the test expects |
| Scenarios.SearchTextMatchesTest | TestDB/DBTest.cs:88-91 | the search query text is the one the test expects |
| Scenarios.UpdateTextMatchesTest | TestDB/DBTest.cs:111-114 | the update query text is the one the test expects |
| Scenarios.DeleteTextMatchesTest | TestDB/DBTest.cs:134-137 | the delete query text is the one the test expects |
| Scenarios.ExistsTextMatchesTest | TestDB/DBTest.cs:157-160 | the exists query text is the one the test expects |

## Left out

- `DB/DBConn.cs` (the executor's connection, command creation and disposal) is not part of this model. `Execute(query, op, setup)` is taken to apply `setup` to a command carrying `query` and return `op` of the engine's answer. The engine is a parameter of the model, and SQL semantics (what `LIKE`, `INSERT` or `UPDATE` do to the table) are not modelled.
- `DB/Program.cs` (the menu loop) and `PrintMenu` are left out: they only dispatch and print fixed text.
- Console I/O: input is a finite list of lines and output is a list of printed lines.
- `DateTime.Now.Year` is the `currentYear` parameter.
- Exceptions thrown by the executor or the engine are left out: a failed connection, SQL errors, and casts of reader columns that are not `int`/`string`. So are exceptions from `IDatabase` calls other than `CreateSong`.
- `Convert.ToInt32` on a scalar that is not an `int` is left out: the scalar is assumed to be a boxed 32-bit id, NULL or missing.
- `int.TryParse` is modelled for `NumberStyles.Integer` with ASCII digits. It does not model the culture's sign symbols or trailing NUL characters.
- Text.IntToString: `int.ToString()` prints a negative number with the current culture's `NegativeSign`. The model always prints `-`, the invariant culture's sign. This affects the renderings and the "created/updated/deleted" reports only for negative ids and years.
- SongManager.NoIdSongPrompt: at the end of input the source loops forever, asking again. The model stops with `Unanswered` (`OutOfInput` in the operations that prompt).
- SongManager.SearchSong: at the end of input the source searches with a null query. The model stops with `OutOfInput` instead.
- SongManager.EditSong: reaching the end of input at the id line throws `NullReferenceException` inside `IsInt`. The model reports it as `Raised("NullReferenceException")`. `DeleteSong` and `GetSong` do the same.
- SongManager.NoIdSongPrompt: its own contract states only the request line and the number of lines read. The field properties are stated by `PromptedSongIsValid` and `ValidLinesFillInOrder`.
- SongManager.Collect: its contract does not say which line was read last. That the stored fields are lines read is stated by `CollectedFieldsAreInputLines`.
- Database.UpdateSong: does not model the database actually changing. Persistence is stated through `StoredRow` in `UpdateThenReadRoundTrip` and `CreateThenReadRoundTrip`.
- Database.DeleteSong: does not model the row disappearing from the table.

=== FILE: database.dfy ===
/**
 * The data-access layer: the `IDatabase` interface and its `Database`
 * implementation. Each operation hands the executor a fixed query text, a
 * parameter setup and a result extraction; the executor applies the setup to
 * a command carrying the query text and passes the engine's answer to the
 * extraction. The engine itself is a parameter: what it answers for a
 * command is given, not derived from SQL semantics.
 */
module Database {
  import opened Wrappers
  import opened Text
  import opened Songs

  /** The value of a bound `SqlParameter`. */
  datatype Value = Str(text: string) | Num(number: Int32)

  datatype Parameter = Parameter(name: string, value: Value)

  /** A command as the engine receives it: the query text and the parameters bound to it, in order. */
  datatype Command = Command(text: string, parameters: seq<Parameter>)

  /** One row of a data reader over the Song table. */
  datatype Row = Row(id: Int32, title: string, album: string, year: Int32, artist: string)

  /** What `ExecuteScalar` can return for the insert: no row, a database NULL, or the boxed new id. */
  datatype Scalar = NullRef | DBNull | Boxed(value: Int32)

  /**
   * The engine behind the executor: the scalar, the reader rows and the
   * affected-row count it produces for a command.
   */
  datatype Engine = Engine(
    scalar: Command -> Scalar,
    reader: Command -> seq<Row>,
    nonQuery: Command -> Int32)

  /** The `IDatabase` interface the song manager is written against. */
  datatype SongDatabase = SongDatabase(
    createSong: Song -> Result<Int32>,
    updateSong: Song -> bool,
    deleteSong: Int32 -> bool,
    readSong: Int32 -> Song,
    searchSong: string -> seq<Song>,
    checkExists: Int32 -> bool)

  // Each query text is written split at its `@name` placeholders; the pieces
  // concatenate to the literal the source passes to the executor.
  const InsertQuery: string :=
    "INSERT INTO Song OUTPUT INSERTED.id VALUES (" + "@title" + ", " + "@album" + ", "
    + "@year" + ", " + "@artist" + ")"
  const SelectByIdQuery: string := "SELECT * FROM Song WHERE id = " + "@id"
  const SearchByTitleQuery: string := "SELECT * FROM Song WHERE title LIKE " + "@name"
  const UpdateQuery: string :=
    "UPDATE Song SET title = " + "@title" + ", album = " + "@album" + ", year = " + "@year"
    + ", artist = " + "@artist" + " WHERE id = " + "@id"
  const DeleteQuery: string := "DELETE FROM Song WHERE id = " + "@id"
  const ExistsQuery: string := "SELECT id FROM Song WHERE id = " + "@id"

  /** The message of the `InvalidOperationException` thrown when the insert yields no id. */
  const InsertFailed: string := "Failed to insert song and retrieve ID."

  /** The song `ReadSong` returns when no row matches. */
  const Sentinel: Song := Song(0, "", "", 0, "")

  /** The value bound under `name`: the first parameter of that name, if any. */
  function Lookup(parameters: seq<Parameter>, name: string): (v: Option<Value>)
    ensures v.None? <==> forall k :: 0 <= k < |parameters| ==> parameters[k].name != name
    ensures v.Some? ==> exists k :: 0 <= k < |parameters| && parameters[k] == Parameter(name, v.value)
  {
    if |parameters| == 0 then None
    else if parameters[0].name == name then Some(parameters[0].value)
    else Lookup(parameters[1..], name)
  }

  function Bound(cmd: Command, name: string): Option<Value> {
    Lookup(cmd.parameters, name)
  }

  /** Every bound parameter has an `@name` placeholder in the query text. */
  predicate PlaceholdersBound(cmd: Command) {
    forall k :: 0 <= k < |cmd.parameters| ==> Contains(cmd.text, "@" + cmd.parameters[k].name)
  }

  /** The four song fields are bound under their column names, each taken unchanged from `s`. */
  predicate BindsFields(cmd: Command, s: Song) {
    && Bound(cmd, "title") == Some(Str(s.title))
    && Bound(cmd, "album") == Some(Str(s.album))
    && Bound(cmd, "year") == Some(Num(s.year))
    && Bound(cmd, "artist") == Some(Str(s.artist))
  }

  function FieldParameters(s: Song): seq<Parameter> {
    [ Parameter("title", Str(s.title)), Parameter("album", Str(s.album)),
      Parameter("year", Num(s.year)), Parameter("artist", Str(s.artist)) ]
  }

  lemma FieldParametersBind(s: Song, before: seq<Parameter>)
    requires forall k :: 0 <= k < |before| ==> before[k].name !in {"title", "album", "year", "artist"}
    ensures BindsFields(Command("", before + FieldParameters(s)), s)
  {
    var ps := before + FieldParameters(s);
    assert ps[|before|] == Parameter("title", Str(s.title));
    assert ps[|before| + 1] == Parameter("album", Str(s.album));
    assert ps[|before| + 2] == Parameter("year", Num(s.year));
    assert ps[|before| + 3] == Parameter("artist", Str(s.artist));
    LookupFirst(ps, "title", |before|);
    LookupFirst(ps, "album", |before| + 1);
    LookupFirst(ps, "year", |before| + 2);
    LookupFirst(ps, "artist", |before| + 3);
  }

  /** The lookup finds the first parameter carrying the name. */
  lemma {:induction false} LookupFirst(parameters: seq<Parameter>, name: string, k: nat)
    requires k < |parameters| && parameters[k].name == name
    requires forall j :: 0 <= j < k ==> parameters[j].name != name
    ensures Lookup(parameters, name) == Some(parameters[k].value)
  {
    if k > 0 {
      LookupFirst(parameters[1..], name, k - 1);
    }
  }

  /** The insert text carries a placeholder for each song field. */
  lemma InsertPlaceholders()
    ensures Contains(InsertQuery, "@title") && Contains(InsertQuery, "@album")
    ensures Contains(InsertQuery, "@year") && Contains(InsertQuery, "@artist")
  {
    var q := InsertQuery;
    assert "@title" <= q[44..];
    assert "@album" <= q[52..];
    assert "@year" <= q[60..];
    assert "@artist" <= q[67..];
  }

  /** The update text carries a placeholder for the id and for each song field. */
  lemma UpdatePlaceholders()
    ensures Contains(UpdateQuery, "@title") && Contains(UpdateQuery, "@album")
    ensures Contains(UpdateQuery, "@year") && Contains(UpdateQuery, "@artist")
    ensures Contains(UpdateQuery, "@id")
  {
    var q := UpdateQuery;
    assert "@title" <= q[24..];
    assert "@album" <= q[40..];
    assert "@year" <= q[55..];
    assert "@artist" <= q[71..];
    assert "@id" <= q[90..];
  }

  lemma FieldPlaceholdersBound(text: string, before: seq<Parameter>, s: Song)
    requires Contains(text, "@title") && Contains(text, "@album")
    requires Contains(text, "@year") && Contains(text, "@artist")
    requires PlaceholdersBound(Command(text, before))
    ensures PlaceholdersBound(Command(text, before + FieldParameters(s)))
  {
    var ps := before + FieldParameters(s);
    forall k | 0 <= k < |ps|
      ensures Contains(text, "@" + ps[k].name)
    {
      if k < |before| {
        assert ps[k] == before[k];
      } else {
        var j := k - |before|;
        assert ps[k] == FieldParameters(s)[j];
        assert "@" + ps[k].name in {"@title", "@album", "@year", "@artist"} by {
          if j == 0 { assert ps[k].name == "title"; assert "@" + "title" == "@title"; }
          else if j == 1 { assert ps[k].name == "album"; assert "@" + "album" == "@album"; }
          else if j == 2 { assert ps[k].name == "year"; assert "@" + "year" == "@year"; }
          else { assert ps[k].name == "artist"; assert "@" + "artist" == "@artist"; }
        }
      }
    }
  }

  /** The parameter setup of `CreateSong`. */
  function CreateCommand(s: Song): (cmd: Command)
    ensures cmd.text == InsertQuery
    ensures BindsFields(cmd, s)
    ensures PlaceholdersBound(cmd)
  {
    FieldParametersBind(s, []);
    InsertPlaceholders();
    FieldPlaceholdersBound(InsertQuery, [], s);
    assert [] + FieldParameters(s) == FieldParameters(s);
    Command(InsertQuery, FieldParameters(s))
  }

  /** The parameter setup of `UpdateSong`: the id first, then the four fields. */
  function UpdateCommand(s: Song): (cmd: Command)
    ensures cmd.text == UpdateQuery
    ensures Bound(cmd, "id") == Some(Num(s.id))
    ensures BindsFields(cmd, s)
    ensures PlaceholdersBound(cmd)
  {
    var idParameter := [Parameter("id", Num(s.id))];
    FieldParametersBind(s, idParameter);
    UpdatePlaceholders();
    assert "@" + "id" == "@id";
    assert PlaceholdersBound(Command(UpdateQuery, idParameter));
    FieldPlaceholdersBound(UpdateQuery, idParameter, s);
    LookupFirst(idParameter + FieldParameters(s), "id", 0);
    Command(UpdateQuery, idParameter + FieldParameters(s))
  }

  /** A command whose only parameter is the song id. */
  function ByIdCommand(query: string, id: Int32): (cmd: Command)
    requires query in {SelectByIdQuery, DeleteQuery, ExistsQuery}
    ensures cmd.text == query
    ensures Bound(cmd, "id") == Some(Num(id))
    ensures forall k :: 0 <= k < |cmd.parameters| ==> cmd.parameters[k].name == "id"
    ensures PlaceholdersBound(cmd)
  {
    assert "@id" <= SelectByIdQuery[30..];
    assert "@id" <= DeleteQuery[28..];
    assert "@id" <= ExistsQuery[31..];
    Command(query, [Parameter("id", Num(id))])
  }

  /** The parameter setup of `SearchSong`: the name wrapped in `%` wildcards, outside the query text. */
  function SearchCommand(name: string): (cmd: Command)
    ensures cmd.text == SearchByTitleQuery
    ensures PlaceholdersBound(cmd)
    ensures Bound(cmd, "name").Some? && Bound(cmd, "name").value.Str?
    ensures var pattern := Bound(cmd, "name").value.text;
      && |pattern| == |name| + 2
      && pattern[0] == '%' && pattern[|pattern| - 1] == '%'
      && pattern[1..|pattern| - 1] == name
  {
    assert "@name" <= SearchByTitleQuery[36..];
    Command(SearchByTitleQuery, [Parameter("name", Str("%" + name + "%"))])
  }

  /** The insert's extraction: a missing or NULL scalar throws, anything else is the new id. */
  function NewIdOf(scalar: Scalar): (r: Result<Int32>)
    ensures r.Failure? <==> scalar.NullRef? || scalar.DBNull?
    ensures r.Failure? ==> r.error == InsertFailed
    ensures r.Success? ==> r.value == scalar.value
  {
    match scalar
    case Boxed(v) => Success(v)
    case _ => Failure(InsertFailed)
  }

  /** One reader row as a song, column for column. */
  function SongOfRow(row: Row): Song {
    NewSong(row.id, row.title, row.album, row.year, row.artist)
  }

  /** The extraction of `ReadSong`: the first row, or the sentinel when the reader is empty. */
  function FirstSong(rows: seq<Row>): (s: Song)
    ensures |rows| == 0 ==> s == Sentinel
    ensures |rows| > 0 ==>
      (s.id == rows[0].id && s.title == rows[0].title && s.album == rows[0].album
       && s.year == rows[0].year && s.artist == rows[0].artist)
  {
    if |rows| == 0 then Sentinel else SongOfRow(rows[0])
  }

  /** The extraction of `SearchSong`: every row, in reader order. */
  function SongsOfRows(rows: seq<Row>): (songs: seq<Song>)
    ensures |songs| == |rows|
    ensures forall k :: 0 <= k < |rows| ==> songs[k] == SongOfRow(rows[k])
  {
    if |rows| == 0 then [] else [SongOfRow(rows[0])] + SongsOfRows(rows[1..])
  }

  /**
   * The extraction of `CheckExists`: it agrees with `ReadSong`'s extraction
   * over the same rows, holding exactly when that is not the sentinel id.
   */
  function RowExists(rows: seq<Row>): (found: bool)
    ensures found <==> FirstSong(rows).id != 0
  {
    |rows| > 0 && rows[0].id != 0
  }

  function CreateSong(e: Engine, s: Song): (r: Result<Int32>)
    ensures r.Failure? <==> e.scalar(CreateCommand(s)).NullRef? || e.scalar(CreateCommand(s)).DBNull?
    ensures r.Success? ==> r.value == e.scalar(CreateCommand(s)).value
  {
    NewIdOf(e.scalar(CreateCommand(s)))
  }

  function ReadSong(e: Engine, id: Int32): Song {
    FirstSong(e.reader(ByIdCommand(SelectByIdQuery, id)))
  }

  function SearchSong(e: Engine, name: string): seq<Song> {
    SongsOfRows(e.reader(SearchCommand(name)))
  }

  /** True exactly when the engine reports a positive affected-row count; zero rows is `false`, not an error. */
  function UpdateSong(e: Engine, s: Song): (updated: bool)
    ensures updated <==> e.nonQuery(UpdateCommand(s)) > 0
  {
    e.nonQuery(UpdateCommand(s)) > 0
  }

  /** True exactly when the engine reports a positive affected-row count; zero rows is `false`, not an error. */
  function DeleteSong(e: Engine, id: Int32): (deleted: bool)
    ensures deleted <==> e.nonQuery(ByIdCommand(DeleteQuery, id)) > 0
  {
    e.nonQuery(ByIdCommand(DeleteQuery, id)) > 0
  }

  function CheckExists(e: Engine, id: Int32): bool {
    RowExists(e.reader(ByIdCommand(ExistsQuery, id)))
  }

  /** `new Database(executor)` viewed through the `IDatabase` interface. */
  function Connect(e: Engine): SongDatabase {
    SongDatabase(
      (s: Song) => CreateSong(e, s),
      (s: Song) => UpdateSong(e, s),
      (id: Int32) => DeleteSong(e, id),
      (id: Int32) => ReadSong(e, id),
      (name: string) => SearchSong(e, name),
      (id: Int32) => CheckExists(e, id))
  }

  /**
   * The row a table would hold after executing `cmd`: the bound field values
   * under the given id. `None` when a field is unbound or of the wrong kind.
   */
  function StoredRow(cmd: Command, id: Int32): Option<Row> {
    match (Bound(cmd, "title"), Bound(cmd, "album"), Bound(cmd, "year"), Bound(cmd, "artist"))
    case (Some(Str(title)), Some(Str(album)), Some(Num(year)), Some(Str(artist))) =>
      Some(Row(id, title, album, year, artist))
    case _ => None
  }

  /**
   * Nothing is lost between the insert's bindings and the read's row
   * mapping: a row stored from `CreateCommand(s)` under the id the insert
   * returned reads back as `s` carrying that id.
   */
  lemma CreateThenReadRoundTrip(s: Song, newId: Int32)
    ensures StoredRow(CreateCommand(s), newId).Some?
    ensures FirstSong([StoredRow(CreateCommand(s), newId).value]) == WithId(s, newId)
  {
  }

  /** An update binds the same four field values as an insert of the same song. */
  lemma UpdateBindsWhatCreateBinds(s: Song)
    ensures forall name :: name in {"title", "album", "year", "artist"} ==>
      Bound(UpdateCommand(s), name) == Bound(CreateCommand(s), name)
  {
  }

  /** A row rewritten from `UpdateCommand(s)` under the bound id reads back as exactly `s`. */
  lemma UpdateThenReadRoundTrip(s: Song)
    ensures Bound(UpdateCommand(s), "id") == Some(Num(s.id))
    ensures StoredRow(UpdateCommand(s), s.id).Some?
    ensures FirstSong([StoredRow(UpdateCommand(s), s.id).value]) == s
  {
  }

  /** The read extraction is the first song of the search extraction, or the sentinel. */
  lemma FirstSongIsHeadOfSongs(rows: seq<Row>)
    ensures FirstSong(rows) == (if |SongsOfRows(rows)| > 0 then SongsOfRows(rows)[0] else Sentinel)
  {
  }

  /**
   * When the id-only query sees the same leading id as the full-row query,
   * `CheckExists` holds exactly when `ReadSong` returns a non-sentinel id.
   */
  lemma CheckExistsAgreesWithReadSong(e: Engine, id: Int32)
    requires var byId := e.reader(ByIdCommand(SelectByIdQuery, id));
      var ids := e.reader(ByIdCommand(ExistsQuery, id));
      && (|byId| == 0 <==> |ids| == 0)
      && (|byId| > 0 ==> byId[0].id == ids[0].id)
    ensures CheckExists(e, id) <==> ReadSong(e, id).id != 0
  {
  }

  /**
   * When the select by id reads back the row an insert of `s` stored under
   * `newId`, `ReadSong` returns `s` carrying that id.
   */
  lemma ReadSongAfterInsert(e: Engine, s: Song, newId: Int32)
    requires StoredRow(CreateCommand(s), newId).Some?
    requires e.reader(ByIdCommand(SelectByIdQuery, newId)) == [StoredRow(CreateCommand(s), newId).value]
    ensures ReadSong(e, newId) == WithId(s, newId)
  {
    CreateThenReadRoundTrip(s, newId);
  }
}

=== FILE: scenarios.dfy ===
/**
 * The behaviours the repository's unit tests pin down, stated for the
 * model: concrete input lines and a stub `IDatabase`, and the calls and
 * output that follow.
 */
module Scenarios {
  import opened Wrappers
  import opened Text
  import opened Songs
  import Database
  import opened SongManager

  const TestLines: seq<string> := ["Test Song", "Test Album", "2023", "Test Artist"]
  const TestSong: Song := Song(0, "Test Song", "Test Album", 2023, "Test Artist")

  /** `int.ToString()` and `int.TryParse` on the literals the tests use. */
  lemma NumberLiterals()
    ensures IntToString(1) == "1" && ParseInt32("1") == Some(1)
    ensures IntToString(2023) == "2023" && ParseInt32("2023") == Some(2023)
  {
    assert IntToString(1) == "1";
    ParseIntToString(1);
    assert IntToString(2023) == "2023";
    ParseIntToString(2023);
  }

  /** `IsInt` accepts "123" and rejects "abc". */
  lemma IsIntExamples()
    ensures IsInt("123") && ParseInt32("123") == Some(123)
    ensures !IsInt("abc")
  {
    assert IntToString(123) == "123";
    ParseIntToString(123);
  }

  /** Years outside [1600, currentYear] parse, and so reach the range check. */
  lemma OutOfRangeYears()
    ensures ParseInt32("99999") == Some(99999) && ParseInt32("1599") == Some(1599)
  {
    assert IntToString(99999) == "99999";
    ParseIntToString(99999);
    assert IntToString(1599) == "1599";
    ParseIntToString(1599);
  }

  /** Each of the four test lines passes the check of the field it fills, from 2023 on. */
  lemma TestLinesAccepted(currentYear: int)
    requires currentYear >= 2023
    ensures forall k :: 0 <= k < FieldCount ==> Rejection(k, TestLines[k], currentYear).None?
  {
    NumberLiterals();
    assert Rejection(0, TestLines[0], currentYear).None?;
    assert Rejection(1, TestLines[1], currentYear).None?;
    assert Rejection(2, TestLines[2], currentYear).None?;
    assert Rejection(3, TestLines[3], currentYear).None?;
  }

  /** Four acceptable lines give the song they describe, unsaved, after the single prompt line. */
  lemma PromptReturnsTestSong(currentYear: int)
    requires currentYear >= 2023
    ensures NoIdSongPrompt(TestLines, currentYear) == Prompted(TestSong, 4, [EnterFieldsPrompt])
  {
    TestLinesAccepted(currentYear);
    ValidLinesFillInOrder(TestLines, [], currentYear);
    assert TestLines + [] == TestLines;
    NumberLiterals();
  }

  /** A blank line, a two-character title and an out-of-range year are each rejected with their own note. */
  lemma RejectionExamples(currentYear: int)
    requires 2023 <= currentYear < 99999
    ensures Rejection(TitleField, "", currentYear) == Some(TryAgain)
    ensures Rejection(ArtistField, " \t", currentYear) == Some(TryAgain)
    ensures Rejection(TitleField, "ab", currentYear) == Some(NameTooShort)
    ensures Rejection(AlbumField, "ab", currentYear) == None
    ensures Rejection(YearField, "99999", currentYear) == Some(YearOutOfRange)
    ensures Rejection(YearField, "1599", currentYear) == Some(YearOutOfRange)
    ensures Rejection(YearField, "year", currentYear) == Some(TryAgain)
  {
    OutOfRangeYears();
  }

  /** An `IDatabase` stub: every id exists, the insert returns 1, nothing else succeeds or matches. */
  const Stub: Database.SongDatabase := Database.SongDatabase(
    (s: Song) => Success(1),
    (s: Song) => false,
    (id: Int32) => false,
    (id: Int32) => Database.Sentinel,
    (name: string) => [],
    (id: Int32) => true)

  /** Creating from the four test lines inserts the test song once and prints the returned id. */
  lemma CreateInsertsOnceAndPrintsId(currentYear: int)
    requires currentYear >= 2023
    ensures CreateSong(Stub, TestLines, currentYear)
      == Run(Done, [CreateCall(TestSong)], [EnterFieldsPrompt, "Song created with id " + IntToString(1)], 4)
  {
    NumberLiterals();
    TestLinesAccepted(currentYear);
    CreateWithValidLines(Stub, TestLines, [], currentYear, 1);
    assert TestLines + [] == TestLines;
  }

  const EditFields: seq<string> := ["New Title", "New Album", "2023", "New Artist"]

  /** The four field lines of the edit test pass their checks, from 2023 on. */
  lemma EditFieldsAccepted(currentYear: int)
    requires currentYear >= 2023
    ensures forall k :: 0 <= k < FieldCount ==> Rejection(k, EditFields[k], currentYear).None?
  {
    NumberLiterals();
    assert Rejection(0, EditFields[0], currentYear).None?;
    assert Rejection(1, EditFields[1], currentYear).None?;
    assert Rejection(2, EditFields[2], currentYear).None?;
    assert Rejection(3, EditFields[3], currentYear).None?;
  }

  /**
   * Editing id 1 with new fields checks it exists, then updates the new
   * song under id 1, and reports the update although the stub's
   * `UpdateSong` returns false.
   */
  lemma EditUpdatesExistingSong(currentYear: int)
    requires currentYear >= 2023
    ensures EditSong(Stub, ["1"] + EditFields, currentYear)
      == Run(Done, [ExistsCall(1), UpdateCall(Song(1, "New Title", "New Album", 2023, "New Artist"))],
             [UpdateIdPrompt, EnterFieldsPrompt, "Song updated with id " + IntToString(1)], 5)
  {
    NumberLiterals();
    EditFieldsAccepted(currentYear);
    EditWithValidLines(Stub, "1", EditFields, [], currentYear);
    assert ["1"] + EditFields + [] == ["1"] + EditFields;
  }

  /** When the id does not exist, editing and deleting stop after the check, with the same note. */
  lemma MissingIdStopsEditAndDelete(db: Database.SongDatabase, currentYear: int)
    requires !db.checkExists(1)
    ensures EditSong(db, ["1"], currentYear) == Run(Done, [ExistsCall(1)], [UpdateIdPrompt, NotExists], 1)
    ensures DeleteSong(db, ["1"]) == Run(Done, [ExistsCall(1)], [DeleteIdPrompt, NotExists], 1)
  {
    NumberLiterals();
  }

  /** When the id exists, deleting calls `DeleteSong(1)` once and reports it. */
  lemma DeleteRemovesExistingSong()
    ensures DeleteSong(Stub, ["1"])
      == Run(Done, [ExistsCall(1), DeleteCall(1)], [DeleteIdPrompt, "Deleted song id: " + IntToString(1)], 1)
  {
    NumberLiterals();
  }

  const SongOne: Song := Song(1, "Song 1", "Album 1", 2020, "Artist 1")
  const SongTwo: Song := Song(2, "Song 2", "Album 2", 2021, "Artist 2")

  /** Searching lists every song the database returns, each line naming the song's title. */
  lemma SearchListsEveryMatch(db: Database.SongDatabase)
    requires db.searchSong("test") == [SongOne, SongTwo]
    ensures var r := SearchSong(db, ["test"]);
      && r.calls == [SearchCall("test")]
      && r.printed == [SearchPrompt, SearchHeader, Render(SongOne), Render(SongTwo)]
      && Contains(r.printed[2], "Song 1") && Contains(r.printed[3], "Song 2")
  {
    RenderContainsFields(SongOne);
    RenderContainsFields(SongTwo);
  }

  /** Getting id 1 prints the song the database reads for it. */
  lemma GetPrintsFoundSong(db: Database.SongDatabase)
    requires db.readSong(1) == SongOne
    ensures GetSong(db, ["1"]) == Run(Done, [ReadCall(1)], [GetIdPrompt, Render(SongOne)], 1)
  {
    NumberLiterals();
  }

  /** Listing all songs searches for "%" and prints a header and one line per song. */
  lemma AllSongsListsEverySong(db: Database.SongDatabase)
    requires db.searchSong("%") == [SongOne, SongTwo]
    ensures AllSongs(db) == Run(Done, [SearchCall("%")], [AllHeader, Render(SongOne), Render(SongTwo)], 0)
  {
  }

  /** Each repository operation hands the executor exactly the query text the tests expect. */
  lemma InsertTextMatchesTest()
    ensures Database.InsertQuery == "INSERT INTO Song OUTPUT INSERTED.id VALUES (@title, @album, @year, @artist)"
  {
  }

  lemma SelectTextMatchesTest()
    ensures Database.SelectByIdQuery == "SELECT * FROM Song WHERE id = @id"
  {
  }

  lemma SearchTextMatchesTest()
    ensures Database.SearchByTitleQuery == "SELECT * FROM Song WHERE title LIKE @name"
  {
  }

  lemma UpdateTextMatchesTest()
    ensures Database.UpdateQuery
      == "UPDATE Song SET title = @title, album = @album, year = @year, artist = @artist WHERE id = @id"
  {
    // One fragment at a time: the solver compares long literals poorly in one step.
    var q := "UPDATE Song SET title = ";
    assert q + "@title" == "UPDATE Song SET title = @title";
    q := q + "@title";
    assert q + ", album = " == "UPDATE Song SET title = @title, album = ";
    q := q + ", album = ";
    assert q + "@album" == "UPDATE Song SET title = @title, album = @album";
    q := q + "@album";
    assert q + ", year = " == "UPDATE Song SET title = @title, album = @album, year = ";
    q := q + ", year = ";
    assert q + "@year" == "UPDATE Song SET title = @title, album = @album, year = @year";
    q := q + "@year";
    assert q + ", artist = " == "UPDATE Song SET title = @title, album = @album, year = @year, artist = ";
    q := q + ", artist = ";
    assert q + "@artist" == "UPDATE Song SET title = @title, album = @album, year = @year, artist = @artist";
    q := q + "@artist";
    assert q + " WHERE id = " == "UPDATE Song SET title = @title, album = @album, year = @year, artist = @artist WHERE id = ";
    q := q + " WHERE id = ";
    assert q + "@id" == "UPDATE Song SET title = @title, album = @album, year = @year, artist = @artist WHERE id = @id";
    q := q + "@id";
    assert Database.UpdateQuery == q;
  }

  lemma DeleteTextMatchesTest()
    ensures Database.DeleteQuery == "DELETE FROM Song WHERE id = @id"
  {
  }

  lemma ExistsTextMatchesTest()
    ensures Database.ExistsQuery == "SELECT id FROM Song WHERE id = @id"
  {
  }
}

=== FILE: song.dfy ===
/** The `Song` entity: five public properties, a constructor and `ToString`. */
module Songs {
  import opened Wrappers
  import opened Text

  /** One row of the Song table; an `id` of 0 means "not stored yet" or "not found". */
  datatype Song = Song(id: Int32, title: string, album: string, year: Int32, artist: string)

  /** The constructor: every argument lands unchanged in the property of the same name. */
  function NewSong(id: Int32, title: string, album: string, year: Int32, artist: string): (s: Song)
    ensures s.id == id && s.title == title && s.album == album
    ensures s.year == year && s.artist == artist
  {
    Song(id, title, album, year, artist)
  }

  /** Assigning the settable `Id` property. */
  function WithId(s: Song, id: Int32): (r: Song)
    ensures r.id == id
    ensures r.title == s.title && r.album == s.album && r.year == s.year && r.artist == s.artist
  {
    s.(id := id)
  }

  /** `Song.ToString()`. */
  function Render(s: Song): string {
    "ID: " + IntToString(s.id) + " | " + s.title + " by " + s.artist
    + " from the album " + s.album + " (" + IntToString(s.year) + ")"
  }

  /** Position of the first `c` in `s`, or `|s|` when there is none. */
  function IndexOf(s: string, c: char): (k: nat)
    ensures k <= |s|
    ensures k < |s| ==> s[k] == c
    ensures forall j :: 0 <= j < k ==> s[j] != c
  {
    if |s| == 0 || s[0] == c then 0 else 1 + IndexOf(s[1..], c)
  }

  /** Position of the last `c` in `s`, if any. */
  function LastIndexOf(s: string, c: char): (k: Option<nat>)
    ensures k.Some? ==> k.value < |s| && s[k.value] == c
    ensures forall j :: (if k.Some? then k.value + 1 else 0) <= j < |s| ==> s[j] != c
  {
    if |s| == 0 then None
    else if s[|s| - 1] == c then Some(|s| - 1)
    else LastIndexOf(s[..|s| - 1], c)
  }

  /** Reads the id back from a rendering: the number between "ID: " and the next space. */
  function RenderedId(text: string): Option<Int32> {
    if |text| >= 4 && text[..4] == "ID: " then
      var rest := text[4..];
      ParseInt32(rest[..IndexOf(rest, ' ')])
    else None
  }

  /** Reads the year back from a rendering: the number inside the last pair of parentheses. */
  function RenderedYear(text: string): Option<Int32> {
    if |text| > 0 && text[|text| - 1] == ')' then
      match LastIndexOf(text, '(')
      case Some(k) => ParseInt32(text[k + 1..|text| - 1])
      case None => None
    else None
  }

  /** A number followed by text that starts with a space: the first space ends the number. */
  lemma NumberThenSpace(n: int, tail: string)
    requires |tail| > 0 && tail[0] == ' '
    ensures IndexOf(IntToString(n) + tail, ' ') == |IntToString(n)|
  {
    var i := IntToString(n);
    var rest := i + tail;
    assert rest[|i|] == ' ';
    assert forall j :: 0 <= j < |i| ==> rest[j] == i[j];
  }

  /** "ID: ", a number and then a space: the id reads back as that number. */
  lemma IdPrefixRoundTrip(n: Int32, tail: string)
    requires |tail| > 0 && tail[0] == ' '
    ensures RenderedId("ID: " + IntToString(n) + tail) == Some(n)
  {
    var i := IntToString(n);
    var text := "ID: " + i + tail;
    var rest := text[4..];
    assert rest == i + tail;
    NumberThenSpace(n, tail);
    assert rest[..|i|] == i;
    ParseIntToString(n);
  }

  /** The rendering starts with the id, so a printed song names the row it came from. */
  lemma RenderedIdRoundTrip(s: Song)
    ensures RenderedId(Render(s)) == Some(s.id)
  {
    var tail := " | " + s.title + " by " + s.artist + " from the album " + s.album
      + " (" + IntToString(s.year) + ")";
    assert Render(s) == "ID: " + IntToString(s.id) + tail;
    IdPrefixRoundTrip(s.id, tail);
  }

  /** Any text followed by a number in parentheses: the year reads back as that number. */
  lemma YearSuffixRoundTrip(head: string, n: Int32)
    ensures RenderedYear(head + "(" + IntToString(n) + ")") == Some(n)
  {
    var y := IntToString(n);
    var text := head + "(" + y + ")";
    assert text[|head|] == '(';
    forall j | |head| + 1 <= j < |text|
      ensures text[j] != '('
    {
      if j < |text| - 1 {
        assert text[j] == y[j - |head| - 1];
      }
    }
    assert LastIndexOf(text, '(') == Some(|head|);
    assert text[|head| + 1..|text| - 1] == y;
    ParseIntToString(n);
  }

  /** The rendering ends with the year in parentheses, whatever the other fields contain. */
  lemma RenderedYearRoundTrip(s: Song)
    ensures RenderedYear(Render(s)) == Some(s.year)
  {
    var head := "ID: " + IntToString(s.id) + " | " + s.title + " by " + s.artist
      + " from the album " + s.album + " ";
    assert Render(s) == head + "(" + IntToString(s.year) + ")";
    YearSuffixRoundTrip(head, s.year);
  }

  /** The title, artist and album all appear verbatim in the rendering. */
  lemma RenderContainsFields(s: Song)
    ensures Contains(Render(s), s.title)
    ensures Contains(Render(s), s.artist)
    ensures Contains(Render(s), s.album)
  {
    var text := Render(s);
    var p1 := "ID: " + IntToString(s.id) + " | ";
    var p2 := p1 + s.title + " by ";
    var p3 := p2 + s.artist + " from the album ";
    var tail := " (" + IntToString(s.year) + ")";
    assert text == p1 + s.title + " by " + s.artist + " from the album " + s.album + tail;
    assert s.title <= text[|p1|..];
    assert s.artist <= text[|p2|..];
    assert s.album <= text[|p3|..];
  }
}

=== FILE: song_manager.dfy ===
/**
 * The console front end's decision logic. Console input is a finite
 * sequence of lines, the current year is a parameter, and the database is
 * any `SongDatabase`. Each operation returns the database calls it made, the
 * lines it printed and how many input lines it read.
 */
module SongManager {
  import opened Wrappers
  import opened Text
  import opened Songs
  import opened Database

  /** The prompt fills title, album, year and artist, in that order. */
  const FieldCount: nat := 4
  const TitleField: nat := 0
  const AlbumField: nat := 1
  const YearField: nat := 2
  const ArtistField: nat := 3

  const MinTitleLength: nat := 3
  const MinYear: int := 1600

  const EnterFieldsPrompt: string := "Enter: song name, album, year, artist"
  const TryAgain: string := "Try again"
  const NameTooShort: string := "Name must be greater than 3 symbols"
  const YearOutOfRange: string := "Year must be between 1600 and current"
  const UpdateIdPrompt: string := "Enter song ID to update:"
  const DeleteIdPrompt: string := "Enter song ID to delete:"
  const GetIdPrompt: string := "Enter song ID to get details:"
  const SearchPrompt: string := "Enter search query:"
  const NotExists: string := "Song with this id not exists"
  const NotFound: string := "Song not found"
  const NoMatches: string := "No songs found matching your query."
  const NoSongs: string := "No songs found."
  const SearchHeader: string := "Search Results:"
  const AllHeader: string := "All Songs:"

  /** What `IsInt` throws on when `Console.ReadLine` hit the end of input. */
  const NullReference: string := "NullReferenceException"

  /** The wildcard `AllSongs` searches for. */
  const AllPattern: string := "%"

  /** A call made on the `IDatabase`. */
  datatype DbCall =
    | CreateCall(song: Song)
    | UpdateCall(song: Song)
    | DeleteCall(id: Int32)
    | ReadCall(id: Int32)
    | SearchCall(query: string)
    | ExistsCall(id: Int32)

  /**
   * How an operation ended: normally, by needing a line past the end of the
   * input, or by an exception escaping it.
   */
  datatype Status = Done | OutOfInput | Raised(reason: string)

  datatype Run = Run(status: Status, calls: seq<DbCall>, printed: seq<string>, consumed: nat)

  /** `IsInt`: whether `int.TryParse` accepts the text. */
  predicate IsInt(text: string) {
    ParseInt32(text).Some?
  }

  /** Every number `int.ToString()` prints passes `IsInt`. */
  lemma IsIntAcceptsPrintedNumbers(n: Int32)
    ensures IsInt(IntToString(n))
    ensures ParseInt32(IntToString(n)).value == n
  {
    ParseIntToString(n);
  }

  /** The message printed when `line` is rejected as field `i`; `None` when it is accepted. */
  function Rejection(i: nat, line: string, currentYear: int): (note: Option<string>)
    ensures note.None? <==>
      && !IsBlank(line)
      && (i == TitleField ==> Utf16Length(line) >= MinTitleLength)
      && (i == YearField ==> ParseInt32(line).Some? && MinYear <= ParseInt32(line).value <= currentYear)
    ensures note.Some? ==> note.value in {TryAgain, NameTooShort, YearOutOfRange}
  {
    if IsBlank(line) then Some(TryAgain)
    else if i == TitleField && Utf16Length(line) < MinTitleLength then Some(NameTooShort)
    else if i == YearField then
      match ParseInt32(line)
      case None => Some(TryAgain)
      case Some(year) => if year < MinYear || year > currentYear then Some(YearOutOfRange) else None
    else None
  }

  /** The prompt's checks for the given current year: field index and line to rejection note. */
  function Checks(currentYear: int): (nat, string) -> Option<string> {
    (i: nat, line: string) => Rejection(i, line, currentYear)
  }

  /** The fields collected so far, or the notes printed before the input ran out. */
  datatype Collected =
    | Complete(fields: seq<string>, consumed: nat, notes: seq<string>)
    | Exhausted(notes: seq<string>)

  /**
   * The `while (i < 4)` loop of `NoIdSongPrompt`, from field `i` on, for any
   * per-field check `verdict`: an accepted line is stored verbatim and moves
   * to the next field, a rejected line prints its note and leaves the field
   * index where it was.
   */
  function Collect(lines: seq<string>, i: nat, verdict: (nat, string) -> Option<string>): (r: Collected)
    requires i <= FieldCount
    ensures r.Complete? ==> |r.fields| == FieldCount - i && r.consumed <= |lines|
    ensures r.Complete? ==> |r.notes| + |r.fields| == r.consumed
    ensures r.Complete? ==> forall k :: 0 <= k < |r.fields| ==> verdict(i + k, r.fields[k]).None?
    ensures r.Exhausted? ==> i < FieldCount && |r.notes| <= |lines| && |lines| - |r.notes| < FieldCount - i
    decreases |lines|
  {
    if i == FieldCount then Complete([], 0, [])
    else if |lines| == 0 then Exhausted([])
    else
      match verdict(i, lines[0])
      case None =>
        (match Collect(lines[1..], i + 1, verdict)
         case Complete(fields, consumed, notes) => Complete([lines[0]] + fields, consumed + 1, notes)
         case Exhausted(notes) => Exhausted(notes))
      case Some(note) =>
        (match Collect(lines[1..], i, verdict)
         case Complete(fields, consumed, notes) => Complete(fields, consumed + 1, [note] + notes)
         case Exhausted(notes) => Exhausted([note] + notes))
  }

  /** Every collected field is one of the lines read, stored verbatim (untrimmed). */
  lemma {:induction false} CollectedFieldsAreInputLines(
    lines: seq<string>, i: nat, verdict: (nat, string) -> Option<string>)
    requires i <= FieldCount
    ensures var r := Collect(lines, i, verdict);
      r.Complete? ==> forall k :: 0 <= k < |r.fields| ==> r.fields[k] in lines[..r.consumed]
    decreases |lines|
  {
    var r := Collect(lines, i, verdict);
    if i < FieldCount && |lines| > 0 && r.Complete? {
      var next := if verdict(i, lines[0]).None? then i + 1 else i;
      CollectedFieldsAreInputLines(lines[1..], next, verdict);
      var r' := Collect(lines[1..], next, verdict);
      assert lines[..r.consumed] == [lines[0]] + lines[1..][..r'.consumed];
      forall k | 0 <= k < |r.fields|
        ensures r.fields[k] in lines[..r.consumed]
      {
        if next == i + 1 {
          assert r.fields == [lines[0]] + r'.fields;
          if k > 0 {
            assert r.fields[k] == r'.fields[k - 1];
          }
        } else {
          assert r.fields == r'.fields;
        }
      }
    }
  }

  /** The outcome of `NoIdSongPrompt`: a song, or the input ran out first. */
  datatype Prompt =
    | Prompted(song: Song, consumed: nat, printed: seq<string>)
    | Unanswered(printed: seq<string>)

  /** `NoIdSongPrompt`: reads the four fields and builds an unsaved song. */
  function NoIdSongPrompt(lines: seq<string>, currentYear: int): (r: Prompt)
    ensures |r.printed| > 0 && r.printed[0] == EnterFieldsPrompt
    ensures r.Prompted? ==> FieldCount <= r.consumed <= |lines|
  {
    match Collect(lines, 0, Checks(currentYear))
    case Complete(fields, consumed, notes) =>
      assert Rejection(YearField, fields[YearField], currentYear).None?;
      var year := ParseInt32(fields[YearField]).value;
      Prompted(NewSong(0, fields[TitleField], fields[AlbumField], year, fields[ArtistField]),
               consumed, [EnterFieldsPrompt] + notes)
    case Exhausted(notes) => Unanswered([EnterFieldsPrompt] + notes)
  }

  /**
   * A prompted song is unsaved (id 0), has a title of at least three UTF-16
   * units, non-blank text fields taken verbatim from the lines read, and a
   * year in [1600, currentYear] parsed from one of those lines; every line
   * read beyond the four fields printed one note.
   */
  lemma PromptedSongIsValid(lines: seq<string>, currentYear: int)
    ensures var r := NoIdSongPrompt(lines, currentYear);
      r.Prompted? ==>
        && |r.printed| == 1 + r.consumed - FieldCount
        && r.song.id == 0 && MinYear <= r.song.year <= currentYear
        && Utf16Length(r.song.title) >= MinTitleLength
        && !IsBlank(r.song.title) && !IsBlank(r.song.album) && !IsBlank(r.song.artist)
        && r.song.title in lines[..r.consumed]
        && r.song.album in lines[..r.consumed]
        && r.song.artist in lines[..r.consumed]
        && exists k :: 0 <= k < r.consumed && ParseInt32(lines[k]) == Some(r.song.year)
  {
    var c := Collect(lines, 0, Checks(currentYear));
    if c.Complete? {
      var fields := c.fields;
      assert Rejection(TitleField, fields[TitleField], currentYear).None?;
      assert Rejection(AlbumField, fields[AlbumField], currentYear).None?;
      assert Rejection(YearField, fields[YearField], currentYear).None?;
      assert Rejection(ArtistField, fields[ArtistField], currentYear).None?;
      CollectedFieldsAreInputLines(lines, 0, Checks(currentYear));
      assert fields[YearField] in lines[..c.consumed];
    }
  }

  /** The prompt gives up only when fewer acceptable lines arrive than there are fields. */
  lemma UnansweredMeansInputRanOut(lines: seq<string>, currentYear: int)
    ensures var r := NoIdSongPrompt(lines, currentYear);
      r.Unanswered? ==> |lines| - (|r.printed| - 1) < FieldCount
  {
  }

  /** A rejected line is only a note: the same field is asked for again from the next line. */
  lemma RejectedLineDoesNotAdvance(
    line: string, rest: seq<string>, i: nat, verdict: (nat, string) -> Option<string>)
    requires i < FieldCount && verdict(i, line).Some?
    ensures var r, r' := Collect([line] + rest, i, verdict), Collect(rest, i, verdict);
      && (r.Complete? <==> r'.Complete?)
      && (r'.Complete? ==>
            && r.fields == r'.fields
            && r.consumed == r'.consumed + 1
            && r.notes == [verdict(i, line).value] + r'.notes)
  {
    assert ([line] + rest)[1..] == rest;
  }

  /** An accepted line becomes field `i`, and the next line is read as field `i + 1`. */
  lemma AcceptedLineAdvances(
    line: string, rest: seq<string>, i: nat, verdict: (nat, string) -> Option<string>)
    requires i < FieldCount && verdict(i, line).None?
    ensures var r, r' := Collect([line] + rest, i, verdict), Collect(rest, i + 1, verdict);
      && (r.Complete? <==> r'.Complete?)
      && (r'.Complete? ==>
            && r.fields == [line] + r'.fields
            && r.consumed == r'.consumed + 1
            && r.notes == r'.notes)
  {
    assert ([line] + rest)[1..] == rest;
  }

  lemma {:induction false} ValidSuffixFills(
    a: seq<string>, rest: seq<string>, i: nat, verdict: (nat, string) -> Option<string>)
    requires |a| == FieldCount && i <= FieldCount
    requires forall k :: i <= k < FieldCount ==> verdict(k, a[k]).None?
    ensures Collect(a[i..] + rest, i, verdict) == Complete(a[i..], FieldCount - i, [])
    decreases FieldCount - i
  {
    if i < FieldCount {
      ValidSuffixFills(a, rest, i + 1, verdict);
      assert a[i..] + rest == [a[i]] + (a[i + 1..] + rest);
      AcceptedLineAdvances(a[i], a[i + 1..] + rest, i, verdict);
      assert [a[i]] + a[i + 1..] == a[i..];
    }
  }

  /** Four acceptable lines fill title, album, year and artist, in that order, with nothing printed in between. */
  lemma ValidLinesFillInOrder(a: seq<string>, rest: seq<string>, currentYear: int)
    requires |a| == FieldCount
    requires forall k :: 0 <= k < FieldCount ==> Rejection(k, a[k], currentYear).None?
    ensures ParseInt32(a[YearField]).Some?
    ensures NoIdSongPrompt(a + rest, currentYear)
      == Prompted(Song(0, a[0], a[1], ParseInt32(a[2]).value, a[3]), FieldCount, [EnterFieldsPrompt])
  {
    assert Rejection(YearField, a[YearField], currentYear).None?;
    ValidSuffixFills(a, rest, 0, Checks(currentYear));
    assert a[0..] == a;
    assert Collect(a + rest, 0, Checks(currentYear)) == Complete(a, FieldCount, []);
    assert [EnterFieldsPrompt] + [] == [EnterFieldsPrompt];
    var year := ParseInt32(a[YearField]).value;
    assert NewSong(0, a[TitleField], a[AlbumField], year, a[ArtistField]) == Song(0, a[0], a[1], year, a[3]);
  }

  /** The printed form of each song, in order. */
  function RenderAll(songs: seq<Song>): (lines: seq<string>)
    ensures |lines| == |songs|
  {
    seq(|songs|, k requires 0 <= k < |songs| => Render(songs[k]))
  }

  /**
   * How a list of songs is reported: only `emptyNote` when there are none,
   * otherwise `header` followed by one line per song, in list order.
   */
  predicate Lists(printed: seq<string>, songs: seq<Song>, emptyNote: string, header: string) {
    && (|songs| == 0 ==> printed == [emptyNote])
    && (|songs| > 0 ==>
          && |printed| == |songs| + 1
          && printed[0] == header
          && forall k :: 0 <= k < |songs| ==> printed[k + 1] == Render(songs[k]))
  }

  /** A rendering never reads as one of the fixed messages: it starts with "ID: ". */
  lemma RenderIsNotAMessage(s: Song)
    ensures Render(s)[0] == 'I'
    ensures Render(s) != NotFound && Render(s) != NoSongs && Render(s) != NoMatches
  {
    var text := Render(s);
    assert text == "ID: " + (IntToString(s.id) + " | " + s.title + " by " + s.artist
      + " from the album " + s.album + " (" + IntToString(s.year) + ")");
    assert NotFound[0] == 'S' && NoSongs[0] == 'N' && NoMatches[0] == 'N';
  }

  /** `CreateSong`: prompt for a song, insert it, print the new id. */
  function CreateSong(db: SongDatabase, lines: seq<string>, currentYear: int): (r: Run)
    ensures r.consumed <= |lines|
    ensures |r.printed| > 0 && r.printed[0] == EnterFieldsPrompt
    ensures var p := NoIdSongPrompt(lines, currentYear);
      && |p.printed| <= |r.printed|
      && r.printed[..|p.printed|] == p.printed
      && r.consumed == (if p.Prompted? then p.consumed else |lines|)
    ensures NoIdSongPrompt(lines, currentYear).Unanswered? ==> r.status == OutOfInput && r.calls == []
    ensures NoIdSongPrompt(lines, currentYear).Prompted? ==>
      var song := NoIdSongPrompt(lines, currentYear).song;
      && r.calls == [CreateCall(song)]
      && (db.createSong(song).Failure? ==> r.status == Raised(db.createSong(song).error))
      && (r.status.Done? <==> db.createSong(song).Success?)
      && (r.status.Done? ==>
            r.printed[|r.printed| - 1] == "Song created with id " + IntToString(db.createSong(song).value))
      && (r.status.Raised? ==> r.status.reason == db.createSong(song).error)
  {
    match NoIdSongPrompt(lines, currentYear)
    case Unanswered(printed) => Run(OutOfInput, [], printed, |lines|)
    case Prompted(song, consumed, printed) =>
      match db.createSong(song)
      case Failure(error) => Run(Raised(error), [CreateCall(song)], printed, consumed)
      case Success(newId) =>
        var report := printed + ["Song created with id " + IntToString(newId)];
        assert report[|report| - 1] == "Song created with id " + IntToString(newId);
        Run(Done, [CreateCall(song)], report, consumed)
  }

  /** Four acceptable lines and a successful insert: one insert of the song they describe, and its new id reported. */
  lemma CreateWithValidLines(
    db: SongDatabase, fields: seq<string>, rest: seq<string>, currentYear: int, newId: Int32)
    requires |fields| == FieldCount
    requires forall k :: 0 <= k < FieldCount ==> Rejection(k, fields[k], currentYear).None?
    requires ParseInt32(fields[YearField]).Some?
    requires db.createSong(Song(0, fields[0], fields[1], ParseInt32(fields[2]).value, fields[3])) == Success(newId)
    ensures CreateSong(db, fields + rest, currentYear)
      == Run(Done,
             [CreateCall(Song(0, fields[0], fields[1], ParseInt32(fields[2]).value, fields[3]))],
             [EnterFieldsPrompt, "Song created with id " + IntToString(newId)],
             FieldCount)
  {
    ValidLinesFillInOrder(fields, rest, currentYear);
    assert [EnterFieldsPrompt] + ["Song created with id " + IntToString(newId)]
      == [EnterFieldsPrompt, "Song created with id " + IntToString(newId)];
  }

  /** `EditSong`: read an id, check it exists, prompt for the new fields, update. */
  function EditSong(db: SongDatabase, lines: seq<string>, currentYear: int): (r: Run)
    ensures r.consumed <= |lines|
    ensures |r.printed| > 0 && r.printed[0] == UpdateIdPrompt
    ensures |lines| == 0 ==> r.status == Raised(NullReference) && r.calls == []
    ensures |lines| > 0 && !IsInt(lines[0]) ==>
      r.status == Done && r.calls == [] && r.printed == [UpdateIdPrompt, TryAgain] && r.consumed == 1
    ensures |lines| > 0 && IsInt(lines[0]) ==> |r.calls| > 0 && r.calls[0] == ExistsCall(ParseInt32(lines[0]).value)
    ensures |lines| > 0 && IsInt(lines[0]) && !db.checkExists(ParseInt32(lines[0]).value) ==>
      && r.status == Done
      && r.calls == [ExistsCall(ParseInt32(lines[0]).value)]
      && r.printed == [UpdateIdPrompt, NotExists]
      && r.consumed == 1
    ensures (&& |lines| > 0 && IsInt(lines[0]) && db.checkExists(ParseInt32(lines[0]).value)
             && NoIdSongPrompt(lines[1..], currentYear).Unanswered?) ==>
      r.status == OutOfInput && r.calls == [ExistsCall(ParseInt32(lines[0]).value)] && r.consumed == |lines|
    ensures |r.calls| <= 2
    ensures forall k :: 0 <= k < |r.calls| ==> (r.calls[k].UpdateCall? <==> k == 1)
    ensures (&& |lines| > 0 && IsInt(lines[0]) && db.checkExists(ParseInt32(lines[0]).value)
             && NoIdSongPrompt(lines[1..], currentYear).Prompted?) ==> |r.calls| == 2
    ensures |r.calls| == 2 ==>
      var id := r.calls[1].song.id;
      && |lines| > 0
      && r.calls[0] == ExistsCall(id)
      && db.checkExists(id)
      && NoIdSongPrompt(lines[1..], currentYear).Prompted?
      && r.calls[1].song == WithId(NoIdSongPrompt(lines[1..], currentYear).song, id)
      && r.status == Done
      && r.consumed == 1 + NoIdSongPrompt(lines[1..], currentYear).consumed
      && r.printed[|r.printed| - 1] == "Song updated with id " + IntToString(id)
  {
    if |lines| == 0 then Run(Raised(NullReference), [], [UpdateIdPrompt], 0)
    else
      match ParseInt32(lines[0])
      case None => Run(Done, [], [UpdateIdPrompt, TryAgain], 1)
      case Some(id) =>
        if !db.checkExists(id) then Run(Done, [ExistsCall(id)], [UpdateIdPrompt, NotExists], 1)
        else
          match NoIdSongPrompt(lines[1..], currentYear)
          case Unanswered(printed) => Run(OutOfInput, [ExistsCall(id)], [UpdateIdPrompt] + printed, |lines|)
          case Prompted(song, consumed, printed) =>
            Run(Done, [ExistsCall(id), UpdateCall(WithId(song, id))],
                [UpdateIdPrompt] + printed + ["Song updated with id " + IntToString(id)], 1 + consumed)
  }

  /**
   * An existing id followed by four acceptable lines: the check, then one
   * update of the prompted song under that id, and the update reported.
   */
  lemma EditWithValidLines(
    db: SongDatabase, idLine: string, fields: seq<string>, rest: seq<string>, currentYear: int)
    requires IsInt(idLine) && db.checkExists(ParseInt32(idLine).value)
    requires |fields| == FieldCount
    requires forall k :: 0 <= k < FieldCount ==> Rejection(k, fields[k], currentYear).None?
    ensures ParseInt32(fields[YearField]).Some?
    ensures var id := ParseInt32(idLine).value;
      EditSong(db, [idLine] + fields + rest, currentYear)
        == Run(Done,
               [ExistsCall(id), UpdateCall(Song(id, fields[0], fields[1], ParseInt32(fields[2]).value, fields[3]))],
               [UpdateIdPrompt, EnterFieldsPrompt, "Song updated with id " + IntToString(id)],
               1 + FieldCount)
  {
    var lines := [idLine] + fields + rest;
    assert lines[0] == idLine;
    assert lines[1..] == fields + rest;
    ValidLinesFillInOrder(fields, rest, currentYear);
  }

  /** `DeleteSong`: read an id, check it exists, delete it. */
  function DeleteSong(db: SongDatabase, lines: seq<string>): (r: Run)
    ensures r.consumed <= |lines|
    ensures r.status != OutOfInput
    ensures |lines| == 0 ==> r.status == Raised(NullReference) && r.calls == []
    ensures |lines| > 0 && !IsInt(lines[0]) ==>
      r.status == Done && r.calls == [] && r.printed == [DeleteIdPrompt, TryAgain] && r.consumed == 1
    ensures |lines| > 0 && IsInt(lines[0]) ==>
      var id := ParseInt32(lines[0]).value;
      && r.status == Done
      && r.consumed == 1
      && (db.checkExists(id) ==>
            && r.calls == [ExistsCall(id), DeleteCall(id)]
            && r.printed == [DeleteIdPrompt, "Deleted song id: " + IntToString(id)])
      && (!db.checkExists(id) ==> r.calls == [ExistsCall(id)] && r.printed == [DeleteIdPrompt, NotExists])
    ensures forall k :: 0 <= k < |r.calls| && r.calls[k].DeleteCall? ==>
      k == 1 && r.calls[0] == ExistsCall(r.calls[k].id) && db.checkExists(r.calls[k].id)
  {
    if |lines| == 0 then Run(Raised(NullReference), [], [DeleteIdPrompt], 0)
    else
      match ParseInt32(lines[0])
      case None => Run(Done, [], [DeleteIdPrompt, TryAgain], 1)
      case Some(id) =>
        if !db.checkExists(id) then Run(Done, [ExistsCall(id)], [DeleteIdPrompt, NotExists], 1)
        else Run(Done, [ExistsCall(id), DeleteCall(id)], [DeleteIdPrompt, "Deleted song id: " + IntToString(id)], 1)
  }

  /** `SearchSong`: read a query, search with it unchanged, list the results. */
  function SearchSong(db: SongDatabase, lines: seq<string>): (r: Run)
    ensures r.consumed <= |lines|
    ensures |r.printed| > 0 && r.printed[0] == SearchPrompt
    ensures |lines| == 0 ==> r.status == OutOfInput && r.calls == []
    ensures |lines| > 0 ==>
      && r.status == Done
      && r.consumed == 1
      && r.calls == [SearchCall(lines[0])]
      && Lists(r.printed[1..], db.searchSong(lines[0]), NoMatches, SearchHeader)
  {
    if |lines| == 0 then Run(OutOfInput, [], [SearchPrompt], 0)
    else
      var found := db.searchSong(lines[0]);
      var report := if |found| == 0 then [NoMatches] else [SearchHeader] + RenderAll(found);
      assert ([SearchPrompt] + report)[1..] == report;
      Run(Done, [SearchCall(lines[0])], [SearchPrompt] + report, 1)
  }

  /** `GetSong`: read an id, read the song, print it or report the sentinel. */
  function GetSong(db: SongDatabase, lines: seq<string>): (r: Run)
    ensures r.consumed <= |lines|
    ensures |r.printed| > 0 && r.printed[0] == GetIdPrompt
    ensures |lines| == 0 ==> r.status == Raised(NullReference) && r.calls == []
    ensures |lines| > 0 && !IsInt(lines[0]) ==>
      r.status == Done && r.calls == [] && r.printed == [GetIdPrompt, TryAgain] && r.consumed == 1
    ensures |lines| > 0 && IsInt(lines[0]) ==>
      var id := ParseInt32(lines[0]).value;
      && r.status == Done
      && r.consumed == 1
      && r.calls == [ReadCall(id)]
      && |r.printed| == 2
      && (NotFound in r.printed <==> db.readSong(id).id == 0)
      && (r.printed[1] == NotFound <==> db.readSong(id).id == 0)
      && (db.readSong(id).id != 0 ==> r.printed[1] == Render(db.readSong(id)))
  {
    if |lines| == 0 then Run(Raised(NullReference), [], [GetIdPrompt], 0)
    else
      match ParseInt32(lines[0])
      case None => Run(Done, [], [GetIdPrompt, TryAgain], 1)
      case Some(id) =>
        var details := db.readSong(id);
        RenderIsNotAMessage(details);
        Run(Done, [ReadCall(id)], [GetIdPrompt, if details.id == 0 then NotFound else Render(details)], 1)
  }

  /** `AllSongs`: search for the bare wildcard and list everything it returns. */
  function AllSongs(db: SongDatabase): (r: Run)
    ensures r.status == Done && r.consumed == 0
    ensures r.calls == [SearchCall("%")]
    ensures Lists(r.printed, db.searchSong("%"), NoSongs, AllHeader)
  {
    var all := db.searchSong(AllPattern);
    Run(Done, [SearchCall(AllPattern)], if |all| == 0 then [NoSongs] else [AllHeader] + RenderAll(all), 0)
  }

  /**
   * Editing and deleting never look at what `UpdateSong` and `DeleteSong`
   * return: the same calls are made and the same lines printed whether the
   * database reports a changed row or not.
   */
  lemma EditAndDeleteIgnoreOutcome(
    db: SongDatabase, lines: seq<string>, currentYear: int,
    update: Song -> bool, delete: Int32 -> bool)
    ensures EditSong(db.(updateSong := update), lines, currentYear) == EditSong(db, lines, currentYear)
    ensures DeleteSong(db.(deleteSong := delete), lines) == DeleteSong(db, lines)
  {
  }

  /**
   * Over the SQL-backed database, `GetSong` reports "Song not found" exactly
   * when the select by id reads no row or a row whose id column is 0, and
   * otherwise prints that row.
   */
  lemma GetSongOverDatabase(e: Engine, line: string)
    requires IsInt(line)
    ensures var id := ParseInt32(line).value;
      var rows := e.reader(ByIdCommand(SelectByIdQuery, id));
      var r := GetSong(Connect(e), [line]);
      && r.calls == [ReadCall(id)]
      && (r.printed[1] == NotFound <==> |rows| == 0 || rows[0].id == 0)
      && (NotFound in r.printed <==> |rows| == 0 || rows[0].id == 0)
      && (|rows| > 0 && rows[0].id != 0 ==> r.printed[1] == Render(SongOfRow(rows[0])))
  {
  }

  /**
   * Over the SQL-backed database, `AllSongs` binds the pattern "%%%" (its
   * "%" wrapped once more by the search) and lists every row read, in order.
   */
  lemma AllSongsOverDatabase(e: Engine)
    ensures Bound(SearchCommand(AllPattern), "name") == Some(Str("%%%"))
    ensures Lists(AllSongs(Connect(e)).printed, SongsOfRows(e.reader(SearchCommand("%"))), NoSongs, AllHeader)
  {
    var pattern := Bound(SearchCommand(AllPattern), "name").value.text;
    assert pattern == "%%%";
  }

  /**
   * Over the SQL-backed database, an id the exists query confirms followed
   * by four acceptable lines sends one update whose `id` is the parsed id
   * line and whose title, album and artist are the accepted lines verbatim,
   * and the update is reported whatever the affected-row count.
   */
  lemma UpdateSongOverDatabase(
    e: Engine, idLine: string, fields: seq<string>, rest: seq<string>, currentYear: int)
    requires IsInt(idLine) && RowExists(e.reader(ByIdCommand(ExistsQuery, ParseInt32(idLine).value)))
    requires |fields| == FieldCount
    requires forall k :: 0 <= k < FieldCount ==> Rejection(k, fields[k], currentYear).None?
    ensures var id := ParseInt32(idLine).value;
      var r := EditSong(Connect(e), [idLine] + fields + rest, currentYear);
      && r.calls[0] == ExistsCall(id)
      && |r.calls| == 2 && r.calls[1].UpdateCall?
      && var cmd := UpdateCommand(r.calls[1].song);
      && cmd.text == UpdateQuery
      && Bound(cmd, "id") == Some(Num(id))
      && Bound(cmd, "title") == Some(Str(fields[TitleField]))
      && Bound(cmd, "album") == Some(Str(fields[AlbumField]))
      && Bound(cmd, "artist") == Some(Str(fields[ArtistField]))
      && ParseInt32(fields[YearField]).Some?
      && Bound(cmd, "year") == Some(Num(ParseInt32(fields[YearField]).value))
      && r.printed[|r.printed| - 1] == "Song updated with id " + IntToString(id)
  {
    EditWithValidLines(Connect(e), idLine, fields, rest, currentYear);
  }

  /**
   * Over the SQL-backed database, `DeleteSong` sends the delete exactly when
   * the exists query's first row has a non-zero id, deletes the id that
   * was read, and reports either the deletion or the missing id.
   */
  lemma DeleteSongOverDatabase(e: Engine, lines: seq<string>)
    requires |lines| > 0 && IsInt(lines[0])
    ensures var id := ParseInt32(lines[0]).value;
      var ids := e.reader(ByIdCommand(ExistsQuery, id));
      var r := DeleteSong(Connect(e), lines);
      && (DeleteCall(id) in r.calls <==> |ids| > 0 && ids[0].id != 0)
      && (forall k :: 0 <= k < |r.calls| && r.calls[k].DeleteCall? ==> r.calls[k].id == id)
      && r.status == Done
      && (|ids| > 0 && ids[0].id != 0 ==> r.printed == [DeleteIdPrompt, "Deleted song id: " + IntToString(id)])
      && (|ids| == 0 || ids[0].id == 0 ==> r.printed == [DeleteIdPrompt, NotExists])
  {
  }
}

=== FILE: text.dfy ===
/**
 * The .NET string and integer primitives the Song code relies on:
 * 32-bit integers, `Char.IsWhiteSpace` and `String.Trim`, `String.Length`
 * (UTF-16 code units), `int.TryParse` / `Int32.Parse` and `int.ToString()`.
 */
module Text {
  import opened Wrappers

  const MinInt32: int := -0x8000_0000
  const MaxInt32: int := 0x7FFF_FFFF

  /** The range of a C# `int`. */
  type Int32 = x: int | MinInt32 <= x <= MaxInt32

  /** `Char.IsWhiteSpace`: the Unicode White_Space characters, which `String.Trim()` strips. */
  predicate IsWhiteSpace(c: char) {
    var n := c as int;
    (0x09 <= n <= 0x0D) || n == 0x20 || n == 0x85 || n == 0xA0 || n == 0x1680
    || (0x2000 <= n <= 0x200A) || n == 0x2028 || n == 0x2029 || n == 0x202F
    || n == 0x205F || n == 0x3000
  }

  /** The white space `NumberStyles.Integer` lets a number carry before and after its digits. */
  predicate IsNumberSpace(c: char) {
    var n := c as int;
    (0x09 <= n <= 0x0D) || n == 0x20
  }

  /** Drops the leading characters that satisfy `ws`. */
  function TrimStart(s: string, ws: char -> bool): string {
    if |s| > 0 && ws(s[0]) then TrimStart(s[1..], ws) else s
  }

  /** Drops the trailing characters that satisfy `ws`. */
  function TrimEnd(s: string, ws: char -> bool): string {
    if |s| > 0 && ws(s[|s| - 1]) then TrimEnd(s[..|s| - 1], ws) else s
  }

  /** `String.Trim` with the given notion of white space. */
  function Trim(s: string, ws: char -> bool): string {
    TrimEnd(TrimStart(s, ws), ws)
  }

  /** `TrimStart` removes exactly the longest all-white-space prefix. */
  lemma {:induction false} TrimStartRemovesSpacePrefix(s: string, ws: char -> bool)
    ensures var r := TrimStart(s, ws);
      && |r| <= |s| && r == s[|s| - |r|..]
      && (forall k :: 0 <= k < |s| - |r| ==> ws(s[k]))
      && (|r| > 0 ==> !ws(r[0]))
    decreases |s|
  {
    if |s| > 0 && ws(s[0]) {
      TrimStartRemovesSpacePrefix(s[1..], ws);
      var r := TrimStart(s, ws);
      assert r == TrimStart(s[1..], ws);
      forall k | 0 <= k < |s| - |r|
        ensures ws(s[k])
      {
        if k > 0 {
          assert s[k] == s[1..][k - 1];
        }
      }
    }
  }

  /** `TrimEnd` removes exactly the longest all-white-space suffix. */
  lemma {:induction false} TrimEndRemovesSpaceSuffix(s: string, ws: char -> bool)
    ensures var r := TrimEnd(s, ws);
      && |r| <= |s| && r == s[..|r|]
      && (forall k :: |r| <= k < |s| ==> ws(s[k]))
      && (|r| > 0 ==> !ws(r[|r| - 1]))
    decreases |s|
  {
    if |s| > 0 && ws(s[|s| - 1]) {
      var s' := s[..|s| - 1];
      TrimEndRemovesSpaceSuffix(s', ws);
      var r := TrimEnd(s, ws);
      assert r == TrimEnd(s', ws);
      forall k | |r| <= k < |s|
        ensures ws(s[k])
      {
        if k < |s| - 1 {
          assert s[k] == s'[k];
        }
      }
    }
  }

  /** `s.Trim() == ""`: the test the song prompt applies to every line. */
  predicate IsBlank(s: string) {
    Trim(s, IsWhiteSpace) == ""
  }

  /** A line is blank exactly when every character of it is white space. */
  lemma BlankIffAllWhiteSpace(s: string)
    ensures IsBlank(s) <==> forall k :: 0 <= k < |s| ==> IsWhiteSpace(s[k])
  {
    var t := TrimStart(s, IsWhiteSpace);
    TrimStartRemovesSpacePrefix(s, IsWhiteSpace);
    TrimEndRemovesSpaceSuffix(t, IsWhiteSpace);
  }

  /** Trimming leaves a string alone when neither end is white space. */
  lemma TrimUnchanged(s: string, ws: char -> bool)
    requires |s| > 0 && !ws(s[0]) && !ws(s[|s| - 1])
    ensures Trim(s, ws) == s
  {
  }

  /** `String.Length`: the number of UTF-16 code units, two for a character outside the BMP. */
  function Utf16Length(s: string): (n: nat)
    ensures |s| <= n <= 2 * |s|
  {
    if |s| == 0 then 0
    else (if s[0] as int > 0xFFFF then 2 else 1) + Utf16Length(s[1..])
  }

  predicate IsDigit(c: char) {
    '0' <= c <= '9'
  }

  predicate AllDigits(s: string) {
    forall k :: 0 <= k < |s| ==> IsDigit(s[k])
  }

  /** The value of a string of decimal digits, most significant first. */
  function DigitsValue(ds: string): nat
    requires AllDigits(ds)
  {
    if |ds| == 0 then 0
    else 10 * DigitsValue(ds[..|ds| - 1]) + (ds[|ds| - 1] as int - '0' as int)
  }

  function DigitChar(d: nat): (c: char)
    requires d < 10
    ensures IsDigit(c)
  {
    ('0' as int + d) as char
  }

  /** The decimal digits of `n`, without leading zeros. */
  function NatToString(n: nat): (s: string)
    ensures |s| > 0 && AllDigits(s)
    ensures s[0] == '0' ==> n == 0
  {
    if n < 10 then [DigitChar(n)] else NatToString(n / 10) + [DigitChar(n % 10)]
  }

  /**
   * `int.ToString()`: an optional minus sign and the decimal digits. The
   * negative sign is taken to be `-`, as in the invariant culture.
   */
  function IntToString(n: int): (s: string)
    ensures |s| > 0
    ensures forall k :: 0 <= k < |s| ==> IsDigit(s[k]) || s[k] == '-'
  {
    if n < 0 then "-" + NatToString(-n) else NatToString(n)
  }

  /** The value of a non-empty run of ASCII digits. */
  function Magnitude(ds: string): Option<nat> {
    if |ds| == 0 || !AllDigits(ds) then None else Some(DigitsValue(ds))
  }

  /** The value of a trimmed number: one optional sign, then digits. */
  function SignedValue(t: string): Option<int> {
    if |t| > 0 && t[0] == '-' then
      match Magnitude(t[1..])
      case Some(m) => Some(-(m as int))
      case None => None
    else if |t| > 0 && t[0] == '+' then
      match Magnitude(t[1..])
      case Some(m) => Some(m)
      case None => None
    else
      match Magnitude(t)
      case Some(m) => Some(m)
      case None => None
  }

  /**
   * `int.TryParse` under `NumberStyles.Integer`: surrounding number white
   * space, one optional sign, at least one ASCII digit, and a value that
   * fits in 32 bits; `None` is the `false` return.
   */
  function ParseInt32(s: string): Option<Int32> {
    match SignedValue(Trim(s, IsNumberSpace))
    case Some(v) => if MinInt32 <= v <= MaxInt32 then Some(v) else None
    case None => None
  }

  lemma {:induction false} DigitsValueOfNatToString(n: nat)
    ensures DigitsValue(NatToString(n)) == n
  {
    if n >= 10 {
      var s := NatToString(n);
      DigitsValueOfNatToString(n / 10);
      assert s[..|s| - 1] == NatToString(n / 10);
    }
  }

  lemma SignedValueOfIntToString(n: int)
    ensures SignedValue(IntToString(n)) == Some(n)
  {
    if n < 0 {
      var m: nat := -n;
      var digits := NatToString(m);
      assert IntToString(n)[1..] == digits;
      DigitsValueOfNatToString(m);
    } else {
      assert IsDigit(IntToString(n)[0]);
      DigitsValueOfNatToString(n);
    }
  }

  /** Parsing what `int.ToString()` printed gives the number back. */
  lemma ParseIntToString(n: Int32)
    ensures ParseInt32(IntToString(n)) == Some(n)
  {
    var s := IntToString(n);
    assert !IsNumberSpace(s[0]) && !IsNumberSpace(s[|s| - 1]);
    TrimUnchanged(s, IsNumberSpace);
    SignedValueOfIntToString(n);
  }

  /** `t` occurs in `s` as a contiguous piece. */
  predicate Contains(s: string, t: string) {
    exists k :: 0 <= k <= |s| && t <= s[k..]
  }
}

=== FILE: wrappers.dfy ===
/** Failure-carrying result types shared by the other modules. */
module Wrappers {

  /** A value that may be absent. */
  datatype Option<+T> = None | Some(value: T)

  /** Either a value or the message of the exception the source would throw. */
  datatype Result<+R> = Success(value: R) | Failure(error: string)
}
